=== FILE: README.md ===
# Data validation and transformation of the vehicle-insurance training pipeline

A Dafny model of the two pieces of the pipeline that carry logic of their own:

- **Data validation** (`DataValidation`, `validation.dfy`). It checks the train and test splits against the schema. The checks are the column count (`validation_number_of_columns`) and the presence of every declared numerical and categorical column (`is_columns_exist`). It builds the additive failure message in its fixed order, derives the pass/fail status from it, and produces the validation artifact together with the JSON report written beside it. The validator sees a table only through its column labels (`seq<string>`).
- **Data transformation** (`DataTransformation`, `transformation.dfy`). This covers:
  - the gate that refuses to run after a failed validation;
  - the split of the `Response` target column from the input features;
  - the Gender map (Female→0, Male→1, anything else fails the int cast);
  - the conditional drop of the schema's identifier column;
  - the fixed two-entry rename of one-hot columns and the conditional int casts;
  - the order in which these steps run on train and on test;
  - the feature-plus-label layout of the saved arrays.

Supporting modules:

- `Frames` (`frames.dfy`) is the part of pandas' DataFrame behaviour the stages rely on:
  - a table as a sequence of named columns of cells;
  - drop-by-label and select-by-label;
  - `astype(int)`.
- `Entities` (`entities.dfy`) holds the schema, the stage configurations and the artifacts.
- `Wrappers` (`wrappers.dfy`) holds `Option` and `Result`. The exceptions the modelled operations raise on a table become a `Failure` carrying an `Error` value: a failed load, a missing or duplicated label, a failed int cast, a failed fit, transform or resampling call. A missing schema key, a failing `get_dummies` call and a failing write cannot happen in the model (see "## Left out").

Loading a CSV file is a parameter `read: string -> Result<Frame, Error>`. One-hot encoding (`get_dummies`), the scaling `ColumnTransformer` and SMOTEENN resampling are the opaque fields of a `Library<P>` parameter. `P` is the type of the fitted preprocessing object. Writing the report, the pickled object and the `.npy` arrays is represented by the values the model returns for them. These are `ValidationOutcome.report`, `TransformationOutput.preprocessor`, `trainArray` and `testArray`, each next to the artifact path it is written to.

Behaviour the model keeps as written:

- A failed test-table column count appends the text "Columns are missing in training dataframe", the same text as a failed train-table count (data_validation.py:97). The model keeps this text unchanged. `CountFailuresIndistinguishable` and `MessageDeterminesSummary` state what the message therefore still tells a reader.
- The cast loop (data_transformation.py:90-92) casts only whichever of the three labels are present after renaming and silently skips the others.
- Pandas never produces duplicate column labels from `read_csv`, so what the stage does with a duplicated label is outside what the code exercises. The model makes these choices:
  - `drop` removes every column carrying the label, as pandas does;
  - the int cast converts every column carrying the label;
  - selecting the single `Response` or `Gender` column fails with `AmbiguousColumn` when the label occurs more than once.

## Model

| member | source | states |
|---|---|---|
| `DataValidation.CountCheckIgnoresNames` | src/components/data_validation.py:27-34 | The count check passes iff the table has as many columns as the schema's `columns` list. Two tables of equal width get the same verdict whatever their labels. |
| `DataValidation.MissingColumns` | src/components/data_validation.py:42-54 | The missing list holds exactly the declared columns absent from the table, each as many times as the schema declares it. It is a subsequence of the declared list, so it keeps schema order. |
| `DataValidation.CheckColumnsExist` | src/components/data_validation.py:39-64 | The two loops build exactly the missing-numerical and missing-categorical lists. The result is true iff every declared numerical and categorical column is among the table's columns. |
| `DataValidation.ColumnsExistIff` | src/components/data_validation.py:57-64 | "No missing list is non-empty" is equivalent to "every declared numerical and categorical column occurs in the table". |
| `DataValidation.ExtraColumnsNeverFail` | src/components/data_validation.py:46-64 | Adding columns to a table never turns a passing presence check into a failing one. |
| `DataValidation.FailureMessage` | src/components/data_validation.py:82-115 | The accumulated message is empty iff all four checks passed. It never starts or ends with whitespace. |
| `DataValidation.FailureMessageOrder` | src/components/data_validation.py:88-111 | The first failing count or train presence check's text opens the message. A failed test presence check's text closes it, or else a failed train presence check's text does. |
| `DataValidation.FailureMessageOffsets` | src/components/data_validation.py:88-111 | The texts appear whole and in the order the checks run. Each failing check's text is the slice of the message that starts where the texts of the earlier failing checks end: offset 0 for the train count, 41 per earlier count failure for the test count, 41 per count failure for the train presence check, and 48 more after a failed train presence check for the test presence check. |
| `DataValidation.CountFailuresIndistinguishable` | src/components/data_validation.py:89-97 | A failed test count yields exactly the message a failed train count yields, because line 97 reuses the training text. |
| `DataValidation.MessageLength` | src/components/data_validation.py:88-111 | The message is as long as the fixed texts of the failing checks together: 41 characters per failed count check, 48 for a failed train presence check, 47 for a failed test presence check. |
| `DataValidation.MessageDeterminesSummary` | src/components/data_validation.py:88-111 | Two runs give equal messages iff they agree on the number of failed count checks and on both presence verdicts. |
| `DataValidation.Strip` | src/components/data_validation.py:130 | Python `str.strip()` returns a slice of its input. Only whitespace lies outside the slice, and the result has no whitespace at either end. An input with no outer whitespace comes back unchanged. |
| `DataValidation.Validate` | src/components/data_validation.py:88-131 | The status holds iff both tables pass both checks, and iff the message is empty. The report's status equals the artifact's status. The report's stripped message equals the artifact's message. The artifact's report path is the configured one. |
| `DataValidation.InitiateValidation` | src/components/data_validation.py:79-139 | The stage fails only when loading the train or the test CSV fails, and a train-load failure is the error returned. Otherwise it returns the outcome of validating both tables' column labels. |
| `Frames.Lookup` | src/components/data_transformation.py:116-119 | Selecting a label succeeds iff exactly one column carries it, and yields that column's cells. An absent label is a KeyError. |
| `Frames.DropColumn` | src/components/data_transformation.py:97-100 | Dropping a label removes every column carrying it and keeps every other column in its relative order. It is the identity when the label is absent. |
| `Frames.Truncate` | src/components/data_transformation.py:92 | The int cast of a float truncates toward zero. |
| `Frames.CastCells` | src/components/data_transformation.py:76 | `astype(int)` succeeds iff no cell is NaN or text. Every result cell is an integer: integers are kept, booleans become 0 or 1, and floats are truncated toward zero. |
| `Frames.CastIdempotent` | src/components/data_transformation.py:92 | A cast result is integral, and casting it again changes nothing. |
| `Frames.CastNamed` | src/components/data_transformation.py:91-92 | Casting a label converts exactly the columns carrying it, keeps every other column and every position, and fails with the label iff one of them holds NaN or text. |
| `Frames.CastNamedAbsent` | src/components/data_transformation.py:91-92 | Casting a label that no column carries returns the table unchanged. |
| `Frames.CastNamedIdempotent` | src/components/data_transformation.py:91-92 | Casting the same label a second time changes nothing. |
| `DataTransformation.SplitTarget` | src/components/data_transformation.py:115-119 | The split succeeds iff `Response` occurs exactly once. The features are the table without `Response`, in the original order, and the label is the `Response` column's cells. A missing `Response` is a KeyError. |
| `DataTransformation.SplitTargetRoundTrip` | src/components/data_transformation.py:115-119 | Re-inserting the label column at its original position rebuilds the loaded table exactly. |
| `DataTransformation.MapGender` | src/components/data_transformation.py:74-77 | The map succeeds iff there is one Gender column and every cell in it is `Female` or `Male`. Female becomes 0 and Male becomes 1. Labels, positions and all other columns are unchanged. A missing Gender column is a KeyError. |
| `DataTransformation.MapGenderRoundTrip` | src/components/data_transformation.py:76 | Decoding 0 to Female and 1 to Male recovers the original table, so the map loses nothing. |
| `DataTransformation.MapGenderTwice` | src/components/data_transformation.py:76 | Mapping an already-mapped table fails with the int-cast error whenever it has rows. With no rows it is a no-op. |
| `DataTransformation.DropId` | src/components/data_transformation.py:95-100 | The schema's `drop_columns` column is gone afterwards, and exactly as many columns as carried that label are removed. All other columns keep their relative order, and a table without it is returned unchanged. |
| `DataTransformation.DropIdIdempotent` | src/components/data_transformation.py:95-100 | Dropping the identifier twice is the same as dropping it once. |
| `DataTransformation.RenameLabelRoundTrip` | src/components/data_transformation.py:86-89 | A label changes iff it is `Vehicle_Age_< 1 Year` or `Vehicle_Age_> 2 Years`. The rename is undone by the reverse map on every other label, and renaming is idempotent. |
| `DataTransformation.CastAll` | src/components/data_transformation.py:90-92 | The cast loop succeeds iff every present listed column is integral. It casts exactly those columns and leaves the rest untouched. A failure names one of the listed columns. |
| `DataTransformation.RenameColumns` | src/components/data_transformation.py:84-93 | The column count and order are kept. Each label is renamed by the fixed two-entry map. Exactly the columns then labelled `Vehicle_Age_lt_1_Year`, `Vehicle_Age_gt_2_Years` or `Vehicle_Damage_Yes` are cast to int, and the step fails iff one of them is not integral. |
| `DataTransformation.RenameColumnsSkipsAbsent` | src/components/data_transformation.py:90-92 | When none of the three cast columns is present, the step only relabels and cannot fail. |
| `DataTransformation.RenameColumnsIdempotent` | src/components/data_transformation.py:84-93 | Applying the rename-and-cast step to its own output changes nothing. |
| `DataTransformation.PrepareFeatures` | src/components/data_transformation.py:124-125 | Mapping Gender and then dropping the identifier succeeds iff the features have one Gender column holding only `Female`/`Male`, and otherwise fails with KeyError, the ambiguity error or the int-cast error. On success the result is the input features without the identifier column, in their order, with the Gender column encoded and every other column unchanged. |
| `DataTransformation.FeatureSteps` | src/components/data_transformation.py:124-132 | A failure of the first two steps stops the steps with that error. Otherwise the one-hot encoding of the prepared table is renamed and cast, and the only further failure is a renamed cast column holding NaN or text. |
| `DataTransformation.GenderMapCommutesWithDrop` | src/components/data_transformation.py:124-125 | Unless the identifier column is `Gender`, mapping then dropping equals dropping then mapping, in success and in failure. |
| `DataTransformation.DropBeforeMapLosesGender` | src/components/data_transformation.py:124-125 | If the identifier column were `Gender`, dropping first would always make the Gender map fail with a KeyError. |
| `DataTransformation.StackLabel` | src/components/data_transformation.py:156-157 | Stacking succeeds iff the feature rows and labels are equally many. Each output row is one entry longer than its feature row, and its last entry is that row's label. |
| `DataTransformation.StackLabelRoundTrip` | src/components/data_transformation.py:156-157 | Splitting every stacked row at its last entry gives back exactly the feature rows and the labels. |
| `DataTransformation.FitAndStack` | src/components/data_transformation.py:137-170 | The preprocessor is the one fitted on the training features. Each saved array unstacks to what resampling its split's transformed features and labels returned. The artifact paths are the configured paths. |
| `DataTransformation.FitAndStackIgnoresTest` | src/components/data_transformation.py:141-157 | For the same library behaviour, including SMOTEENN's random state, the fitted preprocessor and the training array do not depend on the test features or labels. |
| `DataTransformation.TransformLoaded` | src/components/data_transformation.py:115-132 | Failures are reported in the order the steps run: the training table's target split, then the test table's, then the feature steps on train, then on test. The first of these that fails decides the error returned. Success means both tables had exactly one `Response` column and both feature tables passed the Gender map. |
| `DataTransformation.TransformLoadedLayout` | src/components/data_transformation.py:115-157 | The preprocessor is fitted on the training table's features after the feature steps. Each saved array unstacks to what resampling that table's transformed features together with that table's own `Response` column returned, so the same steps run on train and test and each label is stacked last. |
| `DataTransformation.TransformLoadedIgnoresTest` | src/components/data_transformation.py:115-157 | For the same library behaviour, including SMOTEENN's random state, and the same training table, the preprocessor and training array are the same whatever the test table is. |
| `DataTransformation.InitiateTransformation` | src/components/data_transformation.py:102-112 | A failed validation yields a failure carrying the validation message, before any table is loaded. Otherwise a failed train load is the error returned, and success means both loads succeeded and the rest of the stage succeeded on them. |
| `DataTransformation.SuccessfulRun` | src/components/data_transformation.py:102-170 | A successful run passed validation and wrote the configured paths. Both loaded tables had exactly one `Response` column and a well-formed Gender column. Each saved array's rows are that table's resampled, transformed features after the feature steps, each with that table's label as its last entry, and the preprocessor is fitted on the training features. |
| `DataTransformation.TrainOutputIgnoresTestData` | src/components/data_transformation.py:111-161 | For the same library behaviour, including SMOTEENN's random state, two successful runs that load the same training table save the same preprocessor and the same training array, whatever the test table holds. |
| `DataTransformation.GateIgnoresLoader` | src/components/data_transformation.py:107-112 | With a failed validation, the outcome does not depend on the CSV loader at all. |

## Left out

- Data ingestion (src/components/data_ingestion.py) is not modelled. It is a MongoDB fetch, a randomized `train_test_split` and CSV writes, with no logic of its own.
- The MongoDB and S3 clients, environment-variable lookup, logging setup and the scaffolding script are not modelled. They are I/O and process configuration.
- `pd.get_dummies(drop_first=True)` is the opaque `Library.dummies`. Its column naming and level order are pandas behaviour. It is a total function `Frame -> Frame`, so the call (data_transformation.py:81) cannot fail in the model.
- `get_data_transformer_object` and the `StandardScaler`/`MinMaxScaler` `ColumnTransformer` are the opaque `Library.fit` and `Library.transform`, because they are floating-point numerics. So are the schema keys `num_features` and `nm_columns` they read. `fit_transform` on the training features is modelled as `fit` followed by `transform`.
- SMOTEENN resampling is the opaque `Library.resample`, because it is randomized numerics. The model keeps the source's choice of resampling the test split too. `SMOTEENN(sampling_strategy="minority")` (data_transformation.py:147) is given no `random_state`, so it draws from numpy's global generator and two real runs generally save different arrays. `Library.resample` is a function, which fixes that random state for a run. Every statement comparing two runs holds for the same library behaviour, including that random state.
- Reading CSV files is the `read` parameter. Creating directories and writing the JSON report, pickle and `.npy` files are represented by the returned values. Logging is dropped.
- A failure while writing the validation report (data_validation.py:125, 133-134) or saving the object and arrays (data_transformation.py:160-162) is not modelled. These writes cannot fail in the model, although in the source such an error is re-raised wrapped.
- The `MyException` wrapping is represented by `Error` values. The model keeps the original cause instead of the wrapped traceback.
- `astype(int)` on text that spells a number is treated as a failure, like any other text. The columns the source casts are NaN-or-integer (Gender) or boolean (one-hot), so this case does not arise.
- `Frames.Truncate` and `Frames.CastCells` cast into unbounded integers. Pandas rejects only NaN and infinity and then lets numpy cast to int64, which gives meaningless values for floats outside the int64 range. The cast columns hold only 0, 1, NaN or booleans, so this case does not arise either.
- The schema is the record `Entities.Schema`, which always has every key the stages read. A schema file without `columns`, `numerical_columns`, `categorical_columns` or `drop_columns` (data_validation.py:31, 46, 51; data_transformation.py:97), or with a value of the wrong type, raises a KeyError or TypeError in the source. That error is not modelled.
- `DataTransformation.CastAll`: on failure it states only that the error names one of the listed columns, not that it is the first failing one in list order (data_transformation.py:90), although the definition fails at the first one.

=== FILE: entities.dfy ===
/** The records the stages exchange: the declarative schema, the per-stage
    configuration (file locations), and the artifact each stage returns. */
module Entities {

  /** The schema file's keys that the modelled stages read. `columns` is the
      full expected column list, `dropColumns` the single identifier column
      the transformation removes. */
  datatype Schema = Schema(
    columns: seq<string>,
    numericalColumns: seq<string>,
    categoricalColumns: seq<string>,
    dropColumns: string)

  /** Where ingestion left the two splits. */
  datatype IngestionArtifact = IngestionArtifact(trainedFilePath: string, testFilePath: string)

  datatype ValidationConfig = ValidationConfig(validationReportFilePath: string)

  /** Outcome of validation. `message` is empty exactly when `validationStatus` holds. */
  datatype ValidationArtifact = ValidationArtifact(
    validationStatus: bool,
    message: string,
    validationReportFilePath: string)

  /** The JSON object written to the validation report file. */
  datatype ValidationReport = ValidationReport(validationStatus: bool, message: string)

  datatype TransformationConfig = TransformationConfig(
    transformedObjectFilePath: string,
    transformTrainFilePath: string,
    transformTestFilePath: string)

  datatype TransformationArtifact = TransformationArtifact(
    transformedObjectFilePath: string,
    transformedTrainFilePath: string,
    transformedTestFilePath: string)
}

=== FILE: frames.dfy ===
/** The slice of pandas' DataFrame behaviour that the pipeline relies on:
    a table is a sequence of named columns, each a sequence of cells. Column
    labels are compared by equality, as pandas' `Index` does. */
module Frames {
  import opened Wrappers

  /** A single value of a table: text read from CSV, an integer, a float, a
      boolean (what `get_dummies` produces), or a missing value (NaN). */
  datatype Cell = Text(s: string) | Int(n: int) | Real(x: real) | Flag(b: bool) | Missing

  datatype Column = Column(name: string, cells: seq<Cell>)

  datatype Frame = Frame(columns: seq<Column>)

  /** Every way a stage can abort. The source turns each of these into the
      same wrapped exception type; the model keeps the cause. */
  datatype Error =
    | ReadFailed(path: string)          // the CSV at `path` could not be loaded
    | KeyNotFound(column: string)       // a column selected or dropped by name is absent
    | AmbiguousColumn(column: string)   // a single-column operation met a duplicated label
    | NotIntegral(column: string)       // `astype(int)` met a missing or non-numeric value
    | ValidationFailed(message: string) // the transformation gate refused to run
    | ShapeMismatch(rows: nat, labels: nat) // feature rows and labels could not be stacked
    | LibraryFailed(step: string)       // an opaque library call raised

  /** The column labels of a table, in order (`df.columns`). */
  function Names(cols: seq<Column>): (names: seq<string>)
    ensures |names| == |cols|
    ensures forall j :: 0 <= j < |cols| ==> names[j] == cols[j].name
  {
    seq(|cols|, j requires 0 <= j < |cols| => cols[j].name)
  }

  /** No column of `cols` is labelled `name` (`name not in df.columns`). */
  predicate Absent(cols: seq<Column>, name: string)
  {
    forall c :: c in cols ==> c.name != name
  }

  /** Tables whose labels agree position by position lack the same labels. */
  lemma AbsentSameNames(a: seq<Column>, b: seq<Column>, name: string)
    requires |a| == |b|
    requires forall j :: 0 <= j < |a| ==> a[j].name == b[j].name
    ensures Absent(a, name) <==> Absent(b, name)
  {
    if !Absent(a, name) {
      var c :| c in a && c.name == name;
      var j :| 0 <= j < |a| && a[j] == c;
      assert b[j] in b;
    }
    if !Absent(b, name) {
      var c :| c in b && c.name == name;
      var j :| 0 <= j < |b| && b[j] == c;
      assert a[j] in a;
    }
  }

  /** Tables whose labels agree position by position count every label
      alike. */
  lemma {:induction false} CountSameNames(a: seq<Column>, b: seq<Column>, name: string)
    requires |a| == |b|
    requires forall j :: 0 <= j < |a| ==> a[j].name == b[j].name
    ensures Count(a, name) == Count(b, name)
    decreases |a|
  {
    if |a| > 0 {
      CountSameNames(a[..|a| - 1], b[..|b| - 1], name);
    }
  }

  /** `b` can be turned into `a` by deleting elements: `a` keeps the relative
      order of the elements of `b` it retains. Matching greedily from the end
      is complete for this relation. */
  predicate IsSubsequence<T(==)>(a: seq<T>, b: seq<T>)
    decreases |b|
  {
    if |a| == 0 then true
    else if |b| == 0 then false
    else if a[|a| - 1] == b[|b| - 1] then IsSubsequence(a[..|a| - 1], b[..|b| - 1])
    else IsSubsequence(a, b[..|b| - 1])
  }

  /** Number of columns labelled `name`. */
  function Count(cols: seq<Column>, name: string): (n: nat)
    ensures n <= |cols|
    ensures n == 0 <==> Absent(cols, name)
    decreases |cols|
  {
    if |cols| == 0 then 0
    else
      var init := cols[..|cols| - 1];
      assert cols == init + [cols[|cols| - 1]];
      Count(init, name) + (if cols[|cols| - 1].name == name then 1 else 0)
  }

  /** Position of a column labelled `name`; when the label is unique it is
      the position of that one column. */
  function IndexOf(cols: seq<Column>, name: string): (k: nat)
    requires !Absent(cols, name)
    ensures k < |cols| && cols[k].name == name
    ensures Count(cols, name) == 1 ==>
              forall j :: 0 <= j < |cols| && cols[j].name == name ==> j == k
    decreases |cols|
  {
    var init := cols[..|cols| - 1];
    if cols[|cols| - 1].name == name then |cols| - 1
    else
      assert cols == init + [cols[|cols| - 1]];
      IndexOf(init, name)
  }

  /** `df[name]` for a single label: the cells of the one column carrying it.
      An absent label raises KeyError; CSV loading never produces duplicate
      labels, so a duplicated one is reported as ambiguous. */
  function Lookup(cols: seq<Column>, name: string): (r: Result<seq<Cell>, Error>)
    ensures r.Success? <==> Count(cols, name) == 1
    ensures Count(cols, name) == 0 ==> r == Failure(KeyNotFound(name))
    ensures Count(cols, name) > 1 ==> r == Failure(AmbiguousColumn(name))
    ensures r.Success? ==> Column(name, r.value) in cols
  {
    var n := Count(cols, name);
    if n == 0 then Failure(KeyNotFound(name))
    else if n > 1 then Failure(AmbiguousColumn(name))
    else Success(cols[IndexOf(cols, name)].cells)
  }

  /** `df.drop(name, axis=1)` once the label is known to be present: every
      column with that label goes, the rest keep their order. */
  function DropColumn(cols: seq<Column>, name: string): (r: seq<Column>)
    ensures Absent(r, name)
    ensures forall c: Column :: c.name != name ==> (c in r <==> c in cols)
    ensures Absent(cols, name) ==> r == cols
    ensures IsSubsequence(r, cols)
    ensures |r| == |cols| - Count(cols, name)
    decreases |cols|
  {
    if |cols| == 0 then []
    else
      var init := cols[..|cols| - 1];
      var last := cols[|cols| - 1];
      var rest := DropColumn(init, name);
      assert cols == init + [last];
      if last.name == name then rest else rest + [last]
  }

  /** Dropping a label that occurs exactly once, at position `k`, removes
      exactly that position. */
  lemma {:induction false} DropUniqueColumn(cols: seq<Column>, k: nat)
    requires k < |cols|
    requires forall j :: 0 <= j < |cols| && j != k ==> cols[j].name != cols[k].name
    ensures DropColumn(cols, cols[k].name) == cols[..k] + cols[k + 1..]
    decreases |cols|
  {
    var init := cols[..|cols| - 1];
    if k == |cols| - 1 {
      DropLastOnly(cols);
    } else {
      DropKeepsLast(cols, cols[k].name);
      assert init[k] == cols[k];
      DropUniqueColumn(init, k);
      RemoveSplitsLast(cols, k);
    }
  }

  /** A last column with another label survives the drop. */
  lemma DropKeepsLast(cols: seq<Column>, name: string)
    requires |cols| > 0 && cols[|cols| - 1].name != name
    ensures DropColumn(cols, name) == DropColumn(cols[..|cols| - 1], name) + [cols[|cols| - 1]]
  {
  }

  /** When only the last column carries its label, dropping that label
      removes the last column. */
  lemma DropLastOnly(cols: seq<Column>)
    requires |cols| > 0
    requires forall j :: 0 <= j < |cols| - 1 ==> cols[j].name != cols[|cols| - 1].name
    ensures DropColumn(cols, cols[|cols| - 1].name) == cols[..|cols| - 1]
  {
    var init := cols[..|cols| - 1];
    var name := cols[|cols| - 1].name;
    assert Absent(init, name) by {
      forall c | c in init ensures c.name != name {
        var j :| 0 <= j < |init| && init[j] == c;
        assert cols[j] == c;
      }
    }
  }

  /** Two tables that differ only inside columns labelled `x` (same labels,
      same positions) are equal once `x` is dropped. */
  lemma {:induction false} DropHidesDifferences(a: seq<Column>, b: seq<Column>, x: string)
    requires |a| == |b|
    requires forall j :: 0 <= j < |a| ==> a[j].name == b[j].name
    requires forall j :: 0 <= j < |a| && a[j].name != x ==> a[j] == b[j]
    ensures DropColumn(a, x) == DropColumn(b, x)
    decreases |a|
  {
    if |a| > 0 {
      DropHidesDifferences(a[..|a| - 1], b[..|b| - 1], x);
    }
  }

  /** Removing position `k` before the last commutes with splitting off
      the last element. */
  lemma RemoveSplitsLast<T>(s: seq<T>, k: nat)
    requires k + 1 < |s|
    ensures s[..k] + s[k + 1..] == (s[..|s| - 1][..k] + s[..|s| - 1][k + 1..]) + [s[|s| - 1]]
  {
    var init := s[..|s| - 1];
    assert init[..k] == s[..k];
    assert s[k + 1..] == init[k + 1..] + [s[|s| - 1]];
  }

  // ---------------------------------------------------------------------
  // astype(int)

  /** Conversion of a float to an integer truncates toward zero. */
  function Truncate(x: real): (n: int)
    ensures 0.0 <= x ==> n as real <= x < n as real + 1.0
    ensures x < 0.0 ==> n as real - 1.0 < x <= n as real
  {
    if 0.0 <= x then x.Floor else -((-x).Floor)
  }

  /** The integer `astype(int)` gives for one cell; NaN and text have none. */
  function ToInt(c: Cell): Option<int>
  {
    match c
    case Int(n) => Some(n)
    case Flag(b) => Some(if b then 1 else 0)
    case Real(x) => Some(Truncate(x))
    case Text(_) => None
    case Missing => None
  }

  /** Every cell has an integer value: no text and no NaN. */
  predicate Integral(cells: seq<Cell>)
  {
    forall i :: 0 <= i < |cells| ==> !cells[i].Text? && !cells[i].Missing?
  }

  /** `series.astype(int)`: integers stay as they are, booleans become 0 or
      1, floats are truncated toward zero; NaN or text anywhere makes the
      whole cast fail. */
  function CastCells(cells: seq<Cell>): (r: Option<seq<Cell>>)
    ensures r.Some? <==> Integral(cells)
    ensures r.Some? ==> |r.value| == |cells|
    ensures r.Some? ==> forall i :: 0 <= i < |cells| ==>
              && r.value[i].Int?
              && (cells[i].Int? ==> r.value[i] == cells[i])
              && (cells[i].Flag? ==> r.value[i] == Int(if cells[i].b then 1 else 0))
              && (cells[i].Real? ==> r.value[i] == Int(Truncate(cells[i].x)))
    decreases |cells|
  {
    if |cells| == 0 then Some([])
    else
      var init := cells[..|cells| - 1];
      var last := cells[|cells| - 1];
      assert cells == init + [last];
      match CastCells(init)
      case None => None
      case Some(ints) =>
        match ToInt(last)
        case None => None
        case Some(n) => Some(ints + [Int(n)])
  }

  /** Casting twice is casting once: the result of a cast is already integral
      and a second cast leaves it as it is. */
  lemma {:induction false} CastIdempotent(cells: seq<Cell>)
    requires Integral(cells)
    ensures Integral(CastCells(cells).value)
    ensures CastCells(CastCells(cells).value) == CastCells(cells)
  {
    var once := CastCells(cells).value;
    assert Integral(once);
    assert CastCells(once).value == once;
  }

  /** `df[name] = df[name].astype(int)` applied to every column labelled
      `name`; nothing happens when the label is absent. */
  function CastNamed(cols: seq<Column>, name: string): (r: Result<seq<Column>, Error>)
    ensures r.Success? <==> forall j :: 0 <= j < |cols| && cols[j].name == name ==> Integral(cols[j].cells)
    ensures r.Failure? ==> r.error == NotIntegral(name)
    ensures r.Success? ==> |r.value| == |cols|
    ensures r.Success? ==> forall j :: 0 <= j < |cols| ==>
              r.value[j] == (if cols[j].name == name then Column(name, CastCells(cols[j].cells).value) else cols[j])
    decreases |cols|
  {
    if |cols| == 0 then Success([])
    else
      var init := cols[..|cols| - 1];
      var last := cols[|cols| - 1];
      assert cols == init + [last];
      var rest :- CastNamed(init, name);
      if last.name != name then Success(rest + [last])
      else
        match CastCells(last.cells)
        case None => Failure(NotIntegral(name))
        case Some(ints) => Success(rest + [Column(name, ints)])
  }

  /** Casting a label no column carries changes nothing. */
  lemma CastNamedAbsent(cols: seq<Column>, name: string)
    requires Absent(cols, name)
    ensures CastNamed(cols, name) == Success(cols)
  {
    var r := CastNamed(cols, name).value;
    assert forall j :: 0 <= j < |cols| ==> cols[j] in cols;
    assert r == cols;
  }

  /** Casting a label a second time changes nothing. */
  lemma {:induction false} CastNamedIdempotent(cols: seq<Column>, name: string)
    requires CastNamed(cols, name).Success?
    ensures CastNamed(CastNamed(cols, name).value, name) == CastNamed(cols, name)
  {
    var once := CastNamed(cols, name).value;
    forall j | 0 <= j < |once| && once[j].name == name
      ensures Integral(once[j].cells) && CastCells(once[j].cells).value == once[j].cells
    {
      CastIdempotent(cols[j].cells);
    }
    var twice := CastNamed(once, name).value;
    assert twice == once;
  }
}

=== FILE: transformation.dfy ===
/** Column bookkeeping of the data transformation stage: the validation
    gate, the target split, the four feature-engineering steps and the final
    feature-plus-label row layout. One-hot encoding, scaling and resampling
    are library calls whose numerics are not modelled; they enter as the
    opaque functions of a `Library`. */
module DataTransformation {
  import opened Wrappers
  import opened Frames
  import opened Entities

  /** The label column (`TARGET_COLUMN`). */
  const TargetColumn: string := "Response"
  const GenderColumn: string := "Gender"
  const Female: Cell := Text("Female")
  const Male: Cell := Text("Male")

  /** One-hot columns whose labels are renamed, before and after. */
  const AgeUnderOneYear: string := "Vehicle_Age_< 1 Year"
  const AgeUnderOneYearRenamed: string := "Vehicle_Age_lt_1_Year"
  const AgeOverTwoYears: string := "Vehicle_Age_> 2 Years"
  const AgeOverTwoYearsRenamed: string := "Vehicle_Age_gt_2_Years"
  const DamageYes: string := "Vehicle_Damage_Yes"

  /** The columns cast to int after renaming, in the order they are cast. */
  const IntColumns: seq<string> := [AgeUnderOneYearRenamed, AgeOverTwoYearsRenamed, DamageYes]

  // ---------------------------------------------------------------------
  // Target split

  /** `df.drop(columns=[TARGET_COLUMN])` and `df[TARGET_COLUMN]`: the input
      features and the label. */
  function SplitTarget(f: Frame): (r: Result<(Frame, seq<Cell>), Error>)
    ensures r.Success? <==> Count(f.columns, TargetColumn) == 1
    ensures Absent(f.columns, TargetColumn) ==> r == Failure(KeyNotFound(TargetColumn))
    ensures r.Success? ==> Absent(r.value.0.columns, TargetColumn)
    ensures r.Success? ==> |r.value.0.columns| == |f.columns| - 1
    ensures r.Success? ==> IsSubsequence(r.value.0.columns, f.columns)
    ensures r.Success? ==> forall c: Column :: c.name != TargetColumn ==> (c in r.value.0.columns <==> c in f.columns)
    ensures r.Success? ==> Column(TargetColumn, r.value.1) in f.columns
  {
    if Absent(f.columns, TargetColumn) then Failure(KeyNotFound(TargetColumn))
    else
      var features := Frame(DropColumn(f.columns, TargetColumn));
      var labels :- Lookup(f.columns, TargetColumn);
      Success((features, labels))
  }

  /** Putting the label back where it was rebuilds the loaded table: the
      split loses nothing and reorders nothing. */
  lemma SplitTargetRoundTrip(f: Frame)
    requires SplitTarget(f).Success?
    ensures var k := IndexOf(f.columns, TargetColumn);
            var (features, labels) := SplitTarget(f).value;
            k <= |features.columns| &&
            f.columns == features.columns[..k] + [Column(TargetColumn, labels)] + features.columns[k..]
  {
    var cols := f.columns;
    var k := IndexOf(cols, TargetColumn);
    DropUniqueColumn(cols, k);
    var split := SplitTarget(f).value;
    assert split.1 == cols[k].cells;
    ReinsertRemoved(cols, k);
  }

  /** Putting back the element removed at `k` restores the sequence. */
  lemma ReinsertRemoved<T>(s: seq<T>, k: nat)
    requires k < |s|
    ensures var rest := s[..k] + s[k + 1..];
            k <= |rest| && s == rest[..k] + [s[k]] + rest[k..]
  {
    var rest := s[..k] + s[k + 1..];
    assert rest[..k] == s[..k];
    assert rest[k..] == s[k + 1..];
  }

  // ---------------------------------------------------------------------
  // Gender

  /** `.map({'Female': 0, 'Male': 1})` for one cell: any other value,
      including a missing one, becomes NaN. */
  function EncodeGender(c: Cell): Cell
  {
    if c == Female then Int(0) else if c == Male then Int(1) else Missing
  }

  function EncodeAll(cells: seq<Cell>): (r: seq<Cell>)
    ensures |r| == |cells| && forall i :: 0 <= i < |cells| ==> r[i] == EncodeGender(cells[i])
  {
    seq(|cells|, i requires 0 <= i < |cells| => EncodeGender(cells[i]))
  }

  predicate GenderLabels(cells: seq<Cell>)
  {
    forall i :: 0 <= i < |cells| ==> cells[i] == Female || cells[i] == Male
  }

  /** `after` is `before` with Female written as 0 and Male as 1. */
  predicate GenderEncoded(before: seq<Cell>, after: seq<Cell>)
  {
    |after| == |before| &&
    forall i :: 0 <= i < |before| ==>
      (before[i] == Female && after[i] == Int(0)) || (before[i] == Male && after[i] == Int(1))
  }

  /** Replaces the cells of every column labelled `name`. */
  function ReplaceCells(cols: seq<Column>, name: string, cells: seq<Cell>): (r: seq<Column>)
    ensures |r| == |cols|
    ensures forall j :: 0 <= j < |cols| ==>
              r[j] == (if cols[j].name == name then Column(name, cells) else cols[j])
    decreases |cols|
  {
    if |cols| == 0 then []
    else
      var last := cols[|cols| - 1];
      ReplaceCells(cols[..|cols| - 1], name, cells) + [if last.name == name then Column(name, cells) else last]
  }

  /** `map_gender_column`. */
  function MapGender(f: Frame): (r: Result<Frame, Error>)
    ensures r.Success? <==>
              Count(f.columns, GenderColumn) == 1 &&
              GenderLabels(f.columns[IndexOf(f.columns, GenderColumn)].cells)
    ensures Absent(f.columns, GenderColumn) ==> r == Failure(KeyNotFound(GenderColumn))
    ensures Count(f.columns, GenderColumn) > 1 ==> r == Failure(AmbiguousColumn(GenderColumn))
    ensures Count(f.columns, GenderColumn) == 1 && r.Failure? ==> r == Failure(NotIntegral(GenderColumn))
    ensures r.Success? ==> |r.value.columns| == |f.columns|
    ensures r.Success? ==> forall j :: 0 <= j < |f.columns| ==>
              r.value.columns[j].name == f.columns[j].name &&
              (f.columns[j].name != GenderColumn ==> r.value.columns[j] == f.columns[j]) &&
              (f.columns[j].name == GenderColumn ==>
                 GenderEncoded(f.columns[j].cells, r.value.columns[j].cells))
  {
    var cells :- Lookup(f.columns, GenderColumn);
    var encoded := EncodeAll(cells);
    match CastCells(encoded)
    case None =>
      assert !GenderLabels(cells) by {
        var i :| 0 <= i < |encoded| && ToInt(encoded[i]).None?;
      }
      Failure(NotIntegral(GenderColumn))
    case Some(ints) =>
      assert GenderLabels(cells);
      Success(Frame(ReplaceCells(f.columns, GenderColumn, ints)))
  }

  function DecodeGender(c: Cell): Cell
  {
    if c == Int(0) then Female else if c == Int(1) then Male else c
  }

  /** The inverse of the Gender map: 0 back to Female, 1 back to Male. */
  function UnmapGender(f: Frame): Frame
  {
    Frame(seq(|f.columns|, j requires 0 <= j < |f.columns| =>
      var c := f.columns[j];
      if c.name == GenderColumn
      then Column(GenderColumn, seq(|c.cells|, i requires 0 <= i < |c.cells| => DecodeGender(c.cells[i])))
      else c))
  }

  /** The Gender map loses no information. */
  lemma MapGenderRoundTrip(f: Frame)
    requires MapGender(f).Success?
    ensures UnmapGender(MapGender(f).value) == f
  {
    var g := MapGender(f).value;
    var u := UnmapGender(g);
    forall j | 0 <= j < |f.columns|
      ensures u.columns[j] == f.columns[j]
    {
      if f.columns[j].name == GenderColumn {
        assert GenderEncoded(f.columns[j].cells, g.columns[j].cells);
      }
    }
  }

  /** The map is not idempotent: on an already-encoded column every cell
      becomes NaN and the cast fails, unless the table has no rows. */
  lemma MapGenderTwice(f: Frame)
    requires MapGender(f).Success?
    ensures var k := IndexOf(f.columns, GenderColumn);
            var g := MapGender(f).value;
            (|f.columns[k].cells| > 0 ==> MapGender(g) == Failure(NotIntegral(GenderColumn))) &&
            (|f.columns[k].cells| == 0 ==> MapGender(g) == Success(g))
  {
    var k := IndexOf(f.columns, GenderColumn);
    var g := MapGender(f).value;
    assert g.columns[k].name == GenderColumn;
    assert Count(g.columns, GenderColumn) == 1 by {
      CountSameNames(f.columns, g.columns, GenderColumn);
    }
    var k' := IndexOf(g.columns, GenderColumn);
    assert k' == k;
    if |f.columns[k].cells| > 0 {
      assert GenderEncoded(f.columns[k].cells, g.columns[k].cells);
      assert g.columns[k].cells[0] != Female && g.columns[k].cells[0] != Male;
    } else {
      assert g.columns[k].cells == [];
      var cells := Lookup(g.columns, GenderColumn).value;
      UniqueCells(g.columns, GenderColumn, cells, g.columns[k].cells);
      assert EncodeAll(cells) == [];
      assert CastCells([]) == Some([]);
      var again := ReplaceCells(g.columns, GenderColumn, []);
      forall j | 0 <= j < |g.columns|
        ensures again[j] == g.columns[j]
      {
      }
      assert again == g.columns;
    }
  }

  // ---------------------------------------------------------------------
  // Identifier column

  /** `drop_id_column`: removes the schema's `drop_columns` column when it is
      present, and is the identity otherwise. */
  function DropId(f: Frame, schema: Schema): (r: Frame)
    ensures Absent(r.columns, schema.dropColumns)
    ensures IsSubsequence(r.columns, f.columns)
    ensures forall c: Column :: c.name != schema.dropColumns ==> (c in r.columns <==> c in f.columns)
    ensures Absent(f.columns, schema.dropColumns) ==> r == f
    ensures |r.columns| == |f.columns| - Count(f.columns, schema.dropColumns)
  {
    if !Absent(f.columns, schema.dropColumns) then Frame(DropColumn(f.columns, schema.dropColumns))
    else
      assert DropColumn(f.columns, schema.dropColumns) == f.columns;
      f
  }

  /** Dropping twice is dropping once. */
  lemma DropIdIdempotent(f: Frame, schema: Schema)
    ensures DropId(DropId(f, schema), schema) == DropId(f, schema)
  {
  }

  // ---------------------------------------------------------------------
  // Renaming and int casts

  function RenameLabel(name: string): string
  {
    if name == AgeUnderOneYear then AgeUnderOneYearRenamed
    else if name == AgeOverTwoYears then AgeOverTwoYearsRenamed
    else name
  }

  function UnrenameLabel(name: string): string
  {
    if name == AgeUnderOneYearRenamed then AgeUnderOneYear
    else if name == AgeOverTwoYearsRenamed then AgeOverTwoYears
    else name
  }

  /** Exactly the two vehicle-age labels change, and no label that was not
      already one of the new names can be confused with a renamed one. */
  lemma RenameLabelRoundTrip(name: string)
    ensures RenameLabel(name) != name <==> name == AgeUnderOneYear || name == AgeOverTwoYears
    ensures name != AgeUnderOneYearRenamed && name != AgeOverTwoYearsRenamed ==>
              UnrenameLabel(RenameLabel(name)) == name
    ensures RenameLabel(RenameLabel(name)) == RenameLabel(name)
  {
  }

  function Relabel(cols: seq<Column>): (r: seq<Column>)
    ensures |r| == |cols|
    ensures forall j :: 0 <= j < |cols| ==> r[j] == Column(RenameLabel(cols[j].name), cols[j].cells)
  {
    seq(|cols|, j requires 0 <= j < |cols| => Column(RenameLabel(cols[j].name), cols[j].cells))
  }

  predicate Distinct(names: seq<string>)
  {
    forall i, j :: 0 <= i < j < |names| ==> names[i] != names[j]
  }

  /** The `for col in [...]` loop of `rename_columns`: each listed label that
      is present is cast to int, in list order; an absent label is skipped. */
  function CastAll(cols: seq<Column>, names: seq<string>): (r: Result<seq<Column>, Error>)
    requires Distinct(names)
    ensures r.Success? <==> forall j :: 0 <= j < |cols| && cols[j].name in names ==> Integral(cols[j].cells)
    ensures r.Failure? ==> r.error.NotIntegral? && r.error.column in names
    ensures r.Success? ==> |r.value| == |cols|
    ensures r.Success? ==> forall j :: 0 <= j < |cols| ==>
              r.value[j] == (if cols[j].name in names
                             then Column(cols[j].name, CastCells(cols[j].cells).value)
                             else cols[j])
    decreases |names|
  {
    if |names| == 0 then Success(cols)
    else
      var once :- CastNamed(cols, names[0]);
      CastAll(once, names[1..])
  }

  /** `rename_columns`: the fixed two-entry rename, then the int casts. */
  function RenameColumns(f: Frame): (r: Result<Frame, Error>)
    ensures r.Success? <==>
              forall j :: 0 <= j < |f.columns| && RenameLabel(f.columns[j].name) in IntColumns ==>
                Integral(f.columns[j].cells)
    ensures r.Failure? ==> r.error.NotIntegral? && r.error.column in IntColumns
    ensures r.Success? ==> |r.value.columns| == |f.columns|
    ensures r.Success? ==> forall j :: 0 <= j < |f.columns| ==>
              r.value.columns[j].name == RenameLabel(f.columns[j].name) &&
              (RenameLabel(f.columns[j].name) !in IntColumns ==> r.value.columns[j].cells == f.columns[j].cells) &&
              (RenameLabel(f.columns[j].name) in IntColumns ==>
                 r.value.columns[j].cells == CastCells(f.columns[j].cells).value)
  {
    var cols :- CastAll(Relabel(f.columns), IntColumns);
    Success(Frame(cols))
  }

  /** A table with none of the cast columns is only relabelled. */
  lemma RenameColumnsSkipsAbsent(f: Frame)
    requires forall j :: 0 <= j < |f.columns| ==> RenameLabel(f.columns[j].name) !in IntColumns
    ensures RenameColumns(f) == Success(Frame(Relabel(f.columns)))
  {
    assert RenameColumns(f).value.columns == Relabel(f.columns);
  }

  /** Renaming an already renamed table changes nothing. */
  lemma RenameColumnsIdempotent(f: Frame)
    requires RenameColumns(f).Success?
    ensures RenameColumns(RenameColumns(f).value) == RenameColumns(f)
  {
    var g := RenameColumns(f).value;
    forall j | 0 <= j < |g.columns| && RenameLabel(g.columns[j].name) in IntColumns
      ensures Integral(g.columns[j].cells)
    {
      RenameLabelRoundTrip(f.columns[j].name);
      CastIdempotent(f.columns[j].cells);
    }
    assert RenameColumns(g).Success?;
    var h := RenameColumns(g).value;
    forall j | 0 <= j < |g.columns|
      ensures h.columns[j] == g.columns[j]
    {
      RenameLabelRoundTrip(f.columns[j].name);
      if RenameLabel(g.columns[j].name) in IntColumns {
        CastIdempotent(f.columns[j].cells);
      }
    }
    assert h.columns == g.columns;
  }

  // ---------------------------------------------------------------------
  // The four custom steps

  /** The first two feature steps, `map_gender_column` then
      `drop_id_column`. The table handed on is the input features without
      the identifier column, in their order, with the Gender column
      encoded and every other column as it was. */
  function PrepareFeatures(features: Frame, schema: Schema): (r: Result<Frame, Error>)
    ensures r.Success? <==>
              Count(features.columns, GenderColumn) == 1 &&
              GenderLabels(features.columns[IndexOf(features.columns, GenderColumn)].cells)
    ensures Absent(features.columns, GenderColumn) ==> r == Failure(KeyNotFound(GenderColumn))
    ensures Count(features.columns, GenderColumn) > 1 ==> r == Failure(AmbiguousColumn(GenderColumn))
    ensures Count(features.columns, GenderColumn) == 1 && r.Failure? ==> r == Failure(NotIntegral(GenderColumn))
    ensures r.Success? ==> Absent(r.value.columns, schema.dropColumns)
    ensures r.Success? ==>
              var kept := DropColumn(features.columns, schema.dropColumns);
              && |r.value.columns| == |kept|
              && forall j :: 0 <= j < |kept| ==>
                   && r.value.columns[j].name == kept[j].name
                   && (kept[j].name != GenderColumn ==> r.value.columns[j] == kept[j])
                   && (kept[j].name == GenderColumn ==> GenderEncoded(kept[j].cells, r.value.columns[j].cells))
  {
    var mapped :- MapGender(features);
    PreparedShape(features, schema);
    Success(DropId(mapped, schema))
  }

  /** The table `PrepareFeatures` hands on, described through the dropped
      input features. */
  lemma PreparedShape(features: Frame, schema: Schema)
    requires MapGender(features).Success?
    ensures var pre := DropId(MapGender(features).value, schema).columns;
            var kept := DropColumn(features.columns, schema.dropColumns);
            && |pre| == |kept|
            && forall j :: 0 <= j < |kept| ==>
                 && pre[j].name == kept[j].name
                 && (kept[j].name != GenderColumn ==> pre[j] == kept[j])
                 && (kept[j].name == GenderColumn ==> GenderEncoded(kept[j].cells, pre[j].cells))
  {
    var x := schema.dropColumns;
    var mapped := MapGender(features).value;
    var kept := DropColumn(features.columns, x);
    assert DropId(features, schema).columns == kept;
    AbsentSameNames(features.columns, mapped.columns, x);
    if x != GenderColumn {
      GenderMapCommutesWithDrop(features, schema);
    } else {
      DropHidesDifferences(features.columns, mapped.columns, x);
      assert DropId(mapped, schema).columns == kept;
    }
  }

  /** The feature steps in the order the source applies them to either
      split: map Gender, drop the identifier, one-hot encode, rename. */
  function FeatureSteps(features: Frame, schema: Schema, dummies: Frame -> Frame): (r: Result<Frame, Error>)
    ensures PrepareFeatures(features, schema).Failure? ==> r == Failure(PrepareFeatures(features, schema).error)
    ensures PrepareFeatures(features, schema).Success? ==>
              r == RenameColumns(dummies(PrepareFeatures(features, schema).value))
    ensures r.Failure? && PrepareFeatures(features, schema).Success? ==>
              r.error.NotIntegral? && r.error.column in IntColumns
  {
    var pre :- PrepareFeatures(features, schema);
    RenameColumns(dummies(pre))
  }

  /** Dropping a label other than `name` leaves the count of `name` alone. */
  lemma {:induction false} CountAfterDrop(cols: seq<Column>, x: string, name: string)
    requires x != name
    ensures Count(DropColumn(cols, x), name) == Count(cols, name)
    decreases |cols|
  {
    if |cols| > 0 {
      var init := cols[..|cols| - 1];
      var last := cols[|cols| - 1];
      CountAfterDrop(init, x, name);
      if last.name != x {
        var d := DropColumn(init, x);
        assert (d + [last])[..|d|] == d;
      }
    }
  }

  lemma {:induction false} DropCommutesWithReplace(cols: seq<Column>, x: string, name: string, cells: seq<Cell>)
    requires x != name
    ensures DropColumn(ReplaceCells(cols, name, cells), x) == ReplaceCells(DropColumn(cols, x), name, cells)
    decreases |cols|
  {
    if |cols| > 0 {
      var init := cols[..|cols| - 1];
      var last := cols[|cols| - 1];
      var replaced := ReplaceCells(cols, name, cells);
      assert replaced[..|replaced| - 1] == ReplaceCells(init, name, cells);
      DropCommutesWithReplace(init, x, name, cells);
      if last.name != x {
        var d := DropColumn(init, x);
        assert (d + [last])[..|d|] == d;
      }
    }
  }

  lemma UniqueCells(cols: seq<Column>, name: string, a: seq<Cell>, b: seq<Cell>)
    requires Count(cols, name) == 1
    requires Column(name, a) in cols && Column(name, b) in cols
    ensures a == b
  {
    var k := IndexOf(cols, name);
    var i :| 0 <= i < |cols| && cols[i] == Column(name, a);
    var j :| 0 <= j < |cols| && cols[j] == Column(name, b);
  }

  /** The order of the first two steps matters only through the schema:
      unless the identifier column is Gender itself, mapping Gender and then
      dropping the identifier gives what dropping and then mapping gives,
      success and failure alike. */
  lemma GenderMapCommutesWithDrop(f: Frame, schema: Schema)
    requires schema.dropColumns != GenderColumn
    ensures MapGender(DropId(f, schema)) ==
              (if MapGender(f).Success? then Success(DropId(MapGender(f).value, schema)) else MapGender(f))
  {
    var x := schema.dropColumns;
    var d := DropId(f, schema);
    if Absent(f.columns, x) {
      return;
    }
    assert d.columns == DropColumn(f.columns, x);
    CountAfterDrop(f.columns, x, GenderColumn);
    if Count(f.columns, GenderColumn) != 1 {
      return;
    }
    var cells := Lookup(f.columns, GenderColumn).value;
    var cells' := Lookup(d.columns, GenderColumn).value;
    assert Column(GenderColumn, cells') in f.columns;
    UniqueCells(f.columns, GenderColumn, cells, cells');
    if CastCells(EncodeAll(cells)).None? {
      return;
    }
    var ints := CastCells(EncodeAll(cells)).value;
    var replaced := ReplaceCells(f.columns, GenderColumn, ints);
    assert MapGender(f) == Success(Frame(replaced));
    assert MapGender(d) == Success(Frame(ReplaceCells(d.columns, GenderColumn, ints)));
    AbsentSameNames(replaced, f.columns, x);
    assert DropId(Frame(replaced), schema) == Frame(DropColumn(replaced, x));
    DropCommutesWithReplace(f.columns, x, GenderColumn, ints);
  }

  /** When the identifier column is Gender, dropping first would remove the
      column the map needs: the source's order is the only one that works. */
  lemma DropBeforeMapLosesGender(f: Frame, schema: Schema)
    requires schema.dropColumns == GenderColumn
    ensures MapGender(DropId(f, schema)) == Failure(KeyNotFound(GenderColumn))
  {
  }

  // ---------------------------------------------------------------------
  // Row layout

  type Matrix = seq<seq<Cell>>

  /** `np.c_[features, labels]`: each output row is a feature row with its
      label appended as the last entry. */
  function StackLabel(features: Matrix, labels: seq<Cell>): (r: Result<Matrix, Error>)
    ensures r.Success? <==> |features| == |labels|
    ensures r.Failure? ==> r.error == ShapeMismatch(|features|, |labels|)
    ensures r.Success? ==> |r.value| == |features|
    ensures r.Success? ==> forall i :: 0 <= i < |features| ==>
              |r.value[i]| == |features[i]| + 1 && r.value[i][|features[i]|] == labels[i]
  {
    if |features| != |labels| then Failure(ShapeMismatch(|features|, |labels|))
    else Success(seq(|features|, i requires 0 <= i < |features| => features[i] + [labels[i]]))
  }

  /** Splits each row into its features and its last entry. */
  function UnstackLabel(rows: Matrix): (Matrix, seq<Cell>)
    requires forall i :: 0 <= i < |rows| ==> |rows[i]| > 0
  {
    (seq(|rows|, i requires 0 <= i < |rows| => rows[i][..|rows[i]| - 1]),
     seq(|rows|, i requires 0 <= i < |rows| => rows[i][|rows[i]| - 1]))
  }

  /** The stacked array holds the features and the labels and nothing else. */
  lemma StackLabelRoundTrip(features: Matrix, labels: seq<Cell>)
    requires |features| == |labels|
    ensures var rows := StackLabel(features, labels).value;
            (forall i :: 0 <= i < |rows| ==> |rows[i]| > 0) &&
            UnstackLabel(rows) == (features, labels)
  {
    var rows := StackLabel(features, labels).value;
    assert forall i :: 0 <= i < |rows| ==> rows[i] == features[i] + [labels[i]];
    var (xs, ys) := UnstackLabel(rows);
    assert xs == features;
    assert ys == labels;
  }

  // ---------------------------------------------------------------------
  // The stage

  /** The library calls the stage delegates to. `P` is the fitted
      preprocessing object; `fit` sees only the training features. */
  datatype Library<!P> = Library(
    dummies: Frame -> Frame,                                        // pd.get_dummies(drop_first=True)
    fit: Frame -> Result<P, Error>,                                 // ColumnTransformer fit
    transform: (P, Frame) -> Result<Matrix, Error>,                 // ColumnTransformer transform
    resample: (Matrix, seq<Cell>) -> Result<(Matrix, seq<Cell>), Error>) // SMOTEENN fit_resample

  /** What the stage writes: the fitted object and the two arrays, each to
      the path the artifact names. */
  datatype TransformationOutput<P> = TransformationOutput(
    artifact: TransformationArtifact,
    preprocessor: P,
    trainArray: Matrix,
    testArray: Matrix)

  /** Fitting, scaling, resampling and stacking, once both splits have
      been through the feature steps. Only the training features reach
      `fit`; the test features are transformed with the fitted object. */
  function FitAndStack<P>(trainFeatures: Frame, trainLabels: seq<Cell>,
                          testFeatures: Frame, testLabels: seq<Cell>,
                          config: TransformationConfig, lib: Library<P>)
    : (r: Result<TransformationOutput<P>, Error>)
    ensures r.Success? ==> lib.fit(trainFeatures) == Success(r.value.preprocessor)
    ensures r.Success? ==>
              r.value.artifact == TransformationArtifact(config.transformedObjectFilePath,
                                                         config.transformTrainFilePath,
                                                         config.transformTestFilePath)
    ensures r.Success? ==> forall i :: 0 <= i < |r.value.trainArray| ==> |r.value.trainArray[i]| > 0
    ensures r.Success? ==> forall i :: 0 <= i < |r.value.testArray| ==> |r.value.testArray[i]| > 0
    ensures r.Success? ==>
              && lib.transform(r.value.preprocessor, trainFeatures).Success?
              && lib.resample(lib.transform(r.value.preprocessor, trainFeatures).value, trainLabels)
                   == Success(UnstackLabel(r.value.trainArray))
    ensures r.Success? ==>
              && lib.transform(r.value.preprocessor, testFeatures).Success?
              && lib.resample(lib.transform(r.value.preprocessor, testFeatures).value, testLabels)
                   == Success(UnstackLabel(r.value.testArray))
  {
    var preprocessor :- lib.fit(trainFeatures);
    var trainMatrix :- lib.transform(preprocessor, trainFeatures);
    var testMatrix :- lib.transform(preprocessor, testFeatures);
    var trainResampled :- lib.resample(trainMatrix, trainLabels);
    var testResampled :- lib.resample(testMatrix, testLabels);
    var trainArray :- StackLabel(trainResampled.0, trainResampled.1);
    var testArray :- StackLabel(testResampled.0, testResampled.1);
    StackLabelRoundTrip(trainResampled.0, trainResampled.1);
    StackLabelRoundTrip(testResampled.0, testResampled.1);
    Success(TransformationOutput(
      TransformationArtifact(config.transformedObjectFilePath, config.transformTrainFilePath,
                             config.transformTestFilePath),
      preprocessor, trainArray, testArray))
  }

  /** The train-side result of `FitAndStack` depends on the training split
      alone. */
  lemma FitAndStackIgnoresTest<P>(trainFeatures: Frame, trainLabels: seq<Cell>,
                                  testFeatures1: Frame, testLabels1: seq<Cell>,
                                  testFeatures2: Frame, testLabels2: seq<Cell>,
                                  config: TransformationConfig, lib: Library<P>)
    requires FitAndStack(trainFeatures, trainLabels, testFeatures1, testLabels1, config, lib).Success?
    requires FitAndStack(trainFeatures, trainLabels, testFeatures2, testLabels2, config, lib).Success?
    ensures FitAndStack(trainFeatures, trainLabels, testFeatures1, testLabels1, config, lib).value.preprocessor
         == FitAndStack(trainFeatures, trainLabels, testFeatures2, testLabels2, config, lib).value.preprocessor
    ensures FitAndStack(trainFeatures, trainLabels, testFeatures1, testLabels1, config, lib).value.trainArray
         == FitAndStack(trainFeatures, trainLabels, testFeatures2, testLabels2, config, lib).value.trainArray
  {
  }

  /** The stage after both CSV files are loaded: split off the target on
      train and then on test, run the feature steps on train and then on
      test, then fit and stack. */
  function TransformLoaded<P>(train: Frame, test: Frame, config: TransformationConfig, schema: Schema,
                              lib: Library<P>)
    : (r: Result<TransformationOutput<P>, Error>)
    ensures SplitTarget(train).Failure? ==> r == Failure(SplitTarget(train).error)
    ensures SplitTarget(train).Success? && SplitTarget(test).Failure? ==> r == Failure(SplitTarget(test).error)
    ensures SplitTarget(train).Success? && SplitTarget(test).Success? ==>
              var steps := FeatureSteps(SplitTarget(train).value.0, schema, lib.dummies);
              steps.Failure? ==> r == Failure(steps.error)
    ensures SplitTarget(train).Success? && SplitTarget(test).Success? &&
            FeatureSteps(SplitTarget(train).value.0, schema, lib.dummies).Success? ==>
              var steps := FeatureSteps(SplitTarget(test).value.0, schema, lib.dummies);
              steps.Failure? ==> r == Failure(steps.error)
    ensures r.Success? ==> Count(train.columns, TargetColumn) == 1 && Count(test.columns, TargetColumn) == 1
    ensures r.Success? ==> MapGender(SplitTarget(train).value.0).Success? &&
                           MapGender(SplitTarget(test).value.0).Success?
  {
    var trainSplit :- SplitTarget(train);
    var testSplit :- SplitTarget(test);
    var trainFeatures :- FeatureSteps(trainSplit.0, schema, lib.dummies);
    var testFeatures :- FeatureSteps(testSplit.0, schema, lib.dummies);
    FitAndStack(trainFeatures, trainSplit.1, testFeatures, testSplit.1, config, lib)
  }

  /** Each saved array comes from its own loaded table: the label column
      stacked last is that table's `Response` column, resampled together
      with that table's features after the feature steps, and the
      preprocessor is the one fitted on the training features. */
  lemma TransformLoadedLayout<P>(train: Frame, test: Frame, config: TransformationConfig, schema: Schema,
                                 lib: Library<P>)
    requires TransformLoaded(train, test, config, schema, lib).Success?
    ensures var out := TransformLoaded(train, test, config, schema, lib).value;
            var split := SplitTarget(train).value;
            var steps := FeatureSteps(split.0, schema, lib.dummies);
            && steps.Success?
            && lib.fit(steps.value) == Success(out.preprocessor)
            && lib.transform(out.preprocessor, steps.value).Success?
            && lib.resample(lib.transform(out.preprocessor, steps.value).value, split.1)
                 == Success(UnstackLabel(out.trainArray))
    ensures var out := TransformLoaded(train, test, config, schema, lib).value;
            var split := SplitTarget(test).value;
            var steps := FeatureSteps(split.0, schema, lib.dummies);
            && steps.Success?
            && lib.transform(out.preprocessor, steps.value).Success?
            && lib.resample(lib.transform(out.preprocessor, steps.value).value, split.1)
                 == Success(UnstackLabel(out.testArray))
  {
    var trainSplit := SplitTarget(train).value;
    var testSplit := SplitTarget(test).value;
    var trainFeatures := FeatureSteps(trainSplit.0, schema, lib.dummies).value;
    var testFeatures := FeatureSteps(testSplit.0, schema, lib.dummies).value;
    assert TransformLoaded(train, test, config, schema, lib)
        == FitAndStack(trainFeatures, trainSplit.1, testFeatures, testSplit.1, config, lib);
  }

  lemma TransformLoadedIgnoresTest<P>(train: Frame, test1: Frame, test2: Frame,
                                      config: TransformationConfig, schema: Schema, lib: Library<P>)
    requires TransformLoaded(train, test1, config, schema, lib).Success?
    requires TransformLoaded(train, test2, config, schema, lib).Success?
    ensures TransformLoaded(train, test1, config, schema, lib).value.preprocessor
         == TransformLoaded(train, test2, config, schema, lib).value.preprocessor
    ensures TransformLoaded(train, test1, config, schema, lib).value.trainArray
         == TransformLoaded(train, test2, config, schema, lib).value.trainArray
  {
    var trainSplit := SplitTarget(train).value;
    var trainFeatures := FeatureSteps(trainSplit.0, schema, lib.dummies).value;
    var s1 := SplitTarget(test1).value;
    var s2 := SplitTarget(test2).value;
    var f1 := FeatureSteps(s1.0, schema, lib.dummies).value;
    var f2 := FeatureSteps(s2.0, schema, lib.dummies).value;
    FitAndStackIgnoresTest(trainFeatures, trainSplit.1, f1, s1.1, f2, s2.1, config, lib);
  }

  /** `initiate_data_transformation`: the gate, then the two loads, then the
      rest of the stage. */
  function InitiateTransformation<P>(validation: ValidationArtifact, ingestion: IngestionArtifact,
                                     config: TransformationConfig, schema: Schema,
                                     read: string -> Result<Frame, Error>, lib: Library<P>)
    : (r: Result<TransformationOutput<P>, Error>)
    ensures !validation.validationStatus ==> r == Failure(ValidationFailed(validation.message))
    ensures validation.validationStatus && read(ingestion.trainedFilePath).Failure? ==>
              r == Failure(read(ingestion.trainedFilePath).error)
    ensures r.Success? ==> validation.validationStatus
    ensures r.Success? ==> read(ingestion.trainedFilePath).Success? && read(ingestion.testFilePath).Success?
    ensures r.Success? ==>
              r == TransformLoaded(read(ingestion.trainedFilePath).value, read(ingestion.testFilePath).value,
                                   config, schema, lib)
  {
    if !validation.validationStatus then Failure(ValidationFailed(validation.message))
    else
      var train :- read(ingestion.trainedFilePath);
      var test :- read(ingestion.testFilePath);
      TransformLoaded(train, test, config, schema, lib)
  }

  /** A successful run passed validation, wrote the configured paths, and
      laid out each saved array as that loaded table's features, after the
      feature steps, scaling and resampling, with its `Response` column
      stacked as the last entry of every row. */
  lemma SuccessfulRun<P>(validation: ValidationArtifact, ingestion: IngestionArtifact,
                         config: TransformationConfig, schema: Schema,
                         read: string -> Result<Frame, Error>, lib: Library<P>)
    requires InitiateTransformation(validation, ingestion, config, schema, read, lib).Success?
    ensures var out := InitiateTransformation(validation, ingestion, config, schema, read, lib).value;
            && validation.validationStatus
            && out.artifact == TransformationArtifact(config.transformedObjectFilePath,
                                                     config.transformTrainFilePath,
                                                     config.transformTestFilePath)
    ensures var train := read(ingestion.trainedFilePath).value;
            var test := read(ingestion.testFilePath).value;
            && Count(train.columns, TargetColumn) == 1 && Count(test.columns, TargetColumn) == 1
            && MapGender(SplitTarget(train).value.0).Success?
            && MapGender(SplitTarget(test).value.0).Success?
    ensures var out := InitiateTransformation(validation, ingestion, config, schema, read, lib).value;
            var split := SplitTarget(read(ingestion.trainedFilePath).value).value;
            var steps := FeatureSteps(split.0, schema, lib.dummies);
            && (forall i :: 0 <= i < |out.trainArray| ==> |out.trainArray[i]| > 0)
            && steps.Success?
            && lib.fit(steps.value) == Success(out.preprocessor)
            && lib.transform(out.preprocessor, steps.value).Success?
            && lib.resample(lib.transform(out.preprocessor, steps.value).value, split.1)
                 == Success(UnstackLabel(out.trainArray))
    ensures var out := InitiateTransformation(validation, ingestion, config, schema, read, lib).value;
            var split := SplitTarget(read(ingestion.testFilePath).value).value;
            var steps := FeatureSteps(split.0, schema, lib.dummies);
            && (forall i :: 0 <= i < |out.testArray| ==> |out.testArray[i]| > 0)
            && steps.Success?
            && lib.transform(out.preprocessor, steps.value).Success?
            && lib.resample(lib.transform(out.preprocessor, steps.value).value, split.1)
                 == Success(UnstackLabel(out.testArray))
  {
    var train := read(ingestion.trainedFilePath).value;
    var test := read(ingestion.testFilePath).value;
    assert InitiateTransformation(validation, ingestion, config, schema, read, lib)
        == TransformLoaded(train, test, config, schema, lib);
    TransformLoadedLayout(train, test, config, schema, lib);
  }

  /** The training side never looks at the test split: for one library
      behaviour, SMOTEENN's random state included, two successful runs that
      load the same training table fit the same preprocessor and write the
      same training array, whatever the test table holds. */
  lemma TrainOutputIgnoresTestData<P>(validation: ValidationArtifact, ingestion: IngestionArtifact,
                                      config: TransformationConfig, schema: Schema,
                                      read1: string -> Result<Frame, Error>,
                                      read2: string -> Result<Frame, Error>, lib: Library<P>)
    requires read1(ingestion.trainedFilePath) == read2(ingestion.trainedFilePath)
    requires InitiateTransformation(validation, ingestion, config, schema, read1, lib).Success?
    requires InitiateTransformation(validation, ingestion, config, schema, read2, lib).Success?
    ensures InitiateTransformation(validation, ingestion, config, schema, read1, lib).value.preprocessor
         == InitiateTransformation(validation, ingestion, config, schema, read2, lib).value.preprocessor
    ensures InitiateTransformation(validation, ingestion, config, schema, read1, lib).value.trainArray
         == InitiateTransformation(validation, ingestion, config, schema, read2, lib).value.trainArray
  {
    TransformLoadedIgnoresTest(read1(ingestion.trainedFilePath).value, read1(ingestion.testFilePath).value,
                               read2(ingestion.testFilePath).value, config, schema, lib);
  }

  /** A failed validation decides the outcome before any table is loaded:
      the loader cannot influence it. */
  lemma GateIgnoresLoader<P>(validation: ValidationArtifact, ingestion: IngestionArtifact,
                             config: TransformationConfig, schema: Schema,
                             read1: string -> Result<Frame, Error>,
                             read2: string -> Result<Frame, Error>, lib: Library<P>)
    requires !validation.validationStatus
    ensures InitiateTransformation(validation, ingestion, config, schema, read1, lib)
         == InitiateTransformation(validation, ingestion, config, schema, read2, lib)
  {
  }
}

=== FILE: validation.dfy ===
/** Schema conformance of the train and test splits (the data validation
    stage). A table enters this stage only through its column labels. */
module DataValidation {
  import opened Wrappers
  import opened Frames
  import opened Entities

  // ---------------------------------------------------------------------
  // The two checks

  /** `validation_number_of_columns`: the table has as many columns as the
      schema lists. */
  predicate NumberOfColumnsValid(schema: Schema, table: seq<string>)
  {
    |table| == |schema.columns|
  }

  /** The count check never looks at a label: tables of equal width get the
      same verdict against schemas of equal width, whatever the names. */
  lemma CountCheckIgnoresNames(schema: Schema, schema': Schema, table: seq<string>, table': seq<string>)
    requires |table| == |table'| && |schema.columns| == |schema'.columns|
    ensures NumberOfColumnsValid(schema, table) == NumberOfColumnsValid(schema', table')
    ensures NumberOfColumnsValid(schema, table) <==> |table| == |schema.columns|
  {
  }

  /** The declared columns absent from the table, in declaration order, as
      the two loops of `is_columns_exist` collect them. */
  function MissingColumns(declared: seq<string>, table: seq<string>): (missing: seq<string>)
    ensures forall c :: c in missing <==> c in declared && c !in table
    ensures forall c :: multiset(missing)[c] == (if c in table then 0 else multiset(declared)[c])
    ensures IsSubsequence(missing, declared)
    decreases |declared|
  {
    if |declared| == 0 then []
    else
      var init := declared[..|declared| - 1];
      var last := declared[|declared| - 1];
      assert declared == init + [last];
      assert multiset(declared) == multiset(init) + multiset{last};
      var rest := MissingColumns(init, table);
      if last in table then rest else rest + [last]
  }

  /** One more declared column extends the missing list by that column
      exactly when the table lacks it. */
  lemma MissingColumnsStep(declared: seq<string>, i: nat, table: seq<string>)
    requires i < |declared|
    ensures MissingColumns(declared[..i + 1], table)
         == MissingColumns(declared[..i], table) + (if declared[i] in table then [] else [declared[i]])
  {
    assert declared[..i + 1][..i] == declared[..i];
  }

  /** `is_columns_exist`: passes exactly when neither missing list is
      non-empty. */
  predicate ColumnsExist(schema: Schema, table: seq<string>)
  {
    !(|MissingColumns(schema.categoricalColumns, table)| > 0 || |MissingColumns(schema.numericalColumns, table)| > 0)
  }

  /** The presence check passes iff every declared numerical and categorical
      column occurs in the table; columns the schema does not mention play no
      part. */
  lemma ColumnsExistIff(schema: Schema, table: seq<string>)
    ensures ColumnsExist(schema, table) <==>
              (forall c :: c in schema.numericalColumns ==> c in table) &&
              (forall c :: c in schema.categoricalColumns ==> c in table)
  {
    var num := MissingColumns(schema.numericalColumns, table);
    var cat := MissingColumns(schema.categoricalColumns, table);
    if |num| > 0 {
      assert num[0] in num;
    }
    if |cat| > 0 {
      assert cat[0] in cat;
    }
  }

  /** Adding columns to a table never makes the presence check fail. */
  lemma ExtraColumnsNeverFail(schema: Schema, table: seq<string>, wider: seq<string>)
    requires forall c :: c in table ==> c in wider
    ensures ColumnsExist(schema, table) ==> ColumnsExist(schema, wider)
  {
    ColumnsExistIff(schema, table);
    ColumnsExistIff(schema, wider);
  }

  /** The loops of `is_columns_exist`, with the two lists they build. */
  method CheckColumnsExist(schema: Schema, table: seq<string>)
    returns (ok: bool, missingNumerical: seq<string>, missingCategorical: seq<string>)
    ensures missingNumerical == MissingColumns(schema.numericalColumns, table)
    ensures missingCategorical == MissingColumns(schema.categoricalColumns, table)
    ensures forall c :: c in missingNumerical <==> c in schema.numericalColumns && c !in table
    ensures ok <==> (forall c :: c in schema.numericalColumns ==> c in table) &&
                    (forall c :: c in schema.categoricalColumns ==> c in table)
    ensures ok == ColumnsExist(schema, table)
  {
    var numerical := schema.numericalColumns;
    missingNumerical := [];
    var i := 0;
    while i < |numerical|
      invariant 0 <= i <= |numerical|
      invariant missingNumerical == MissingColumns(numerical[..i], table)
    {
      MissingColumnsStep(numerical, i, table);
      if numerical[i] !in table {
        missingNumerical := missingNumerical + [numerical[i]];
      }
      i := i + 1;
    }
    assert numerical[..i] == numerical;

    var categorical := schema.categoricalColumns;
    missingCategorical := [];
    var k := 0;
    while k < |categorical|
      invariant 0 <= k <= |categorical|
      invariant missingCategorical == MissingColumns(categorical[..k], table)
    {
      MissingColumnsStep(categorical, k, table);
      if categorical[k] !in table {
        missingCategorical := missingCategorical + [categorical[k]];
      }
      k := k + 1;
    }
    assert categorical[..k] == categorical;

    ok := !(|missingCategorical| > 0 || |missingNumerical| > 0);
    ColumnsExistIff(schema, table);
  }

  // ---------------------------------------------------------------------
  // The failure message

  /** The fixed text each failing check appends. The test-table count check
      reuses the train-table text word for word (data_validation.py:97). */
  const TrainCountFailure: string := "Columns are missing in training dataframe"
  const TestCountFailure: string := "Columns are missing in training dataframe"
  const TrainPresenceFailure: string := "Columns datatype mismatch in training dataframe."
  const TestPresenceFailure: string := "Columns datatype mismatch in testing dataframe."

  /** The verdicts of the four checks, in the order they run. */
  datatype Checks = Checks(trainCount: bool, testCount: bool, trainPresence: bool, testPresence: bool)
  {
    predicate AllPassed()
    {
      trainCount && testCount && trainPresence && testPresence
    }
  }

  /** All four checks run; none is skipped because an earlier one failed. */
  function RunChecks(schema: Schema, train: seq<string>, test: seq<string>): (checks: Checks)
    ensures checks.trainCount == NumberOfColumnsValid(schema, train)
    ensures checks.testCount == NumberOfColumnsValid(schema, test)
    ensures checks.trainPresence == ColumnsExist(schema, train)
    ensures checks.testPresence == ColumnsExist(schema, test)
  {
    Checks(
      NumberOfColumnsValid(schema, train),
      NumberOfColumnsValid(schema, test),
      ColumnsExist(schema, train),
      ColumnsExist(schema, test))
  }

  function Unless(passed: bool, text: string): string
  {
    if passed then "" else text
  }

  /** The accumulated `validation_error_message`. It is empty exactly when
      every check passed, and it carries no surrounding whitespace. */
  function FailureMessage(checks: Checks): (message: string)
    ensures |message| == 0 <==> checks.AllPassed()
    ensures NoOuterSpace(message)
  {
    var a := Unless(checks.trainCount, TrainCountFailure);
    var b := Unless(checks.testCount, TestCountFailure);
    var c := Unless(checks.trainPresence, TrainPresenceFailure);
    var d := Unless(checks.testPresence, TestPresenceFailure);
    assert NoOuterSpace(TrainCountFailure) && NoOuterSpace(TestCountFailure);
    assert NoOuterSpace(TrainPresenceFailure) && NoOuterSpace(TestPresenceFailure);
    NoOuterSpaceConcat(a, b);
    NoOuterSpaceConcat(a + b, c);
    NoOuterSpaceConcat(a + b + c, d);
    a + b + c + d
  }

  /** The texts appear in the order the checks run: a failed train count
      opens the message, and a failed test presence check closes it. */
  lemma FailureMessageOrder(checks: Checks)
    ensures !checks.trainCount ==> TrainCountFailure <= FailureMessage(checks)
    ensures checks.trainCount && !checks.testCount ==> TestCountFailure <= FailureMessage(checks)
    ensures checks.trainCount && checks.testCount && !checks.trainPresence ==>
              TrainPresenceFailure <= FailureMessage(checks)
    ensures !checks.testPresence ==> EndsWith(FailureMessage(checks), TestPresenceFailure)
    ensures checks.testPresence && !checks.trainPresence ==>
              EndsWith(FailureMessage(checks), TrainPresenceFailure)
  {
    var a := Unless(checks.trainCount, TrainCountFailure);
    var b := Unless(checks.testCount, TestCountFailure);
    var c := Unless(checks.trainPresence, TrainPresenceFailure);
    var d := Unless(checks.testPresence, TestPresenceFailure);
    FourPartsOrder(a, b, c, d, FailureMessage(checks));
  }

  /** Every failing check's text sits, whole, at the offset the earlier
      failing texts leave for it. */
  lemma FailureMessageOffsets(checks: Checks)
    ensures var m := FailureMessage(checks);
            !checks.trainCount ==> 41 <= |m| && m[..41] == TrainCountFailure
    ensures var m := FailureMessage(checks);
            var k := Summarize(checks).countFailures;
            !checks.testCount ==> 41 * k <= |m| && m[41 * Indicator(!checks.trainCount)..41 * k] == TestCountFailure
    ensures var m := FailureMessage(checks);
            var k := Summarize(checks).countFailures;
            !checks.trainPresence ==> 41 * k + 48 <= |m| && m[41 * k..41 * k + 48] == TrainPresenceFailure
    ensures var m := FailureMessage(checks);
            var k := Summarize(checks).countFailures;
            !checks.testPresence ==>
              41 * k + 48 * Indicator(!checks.trainPresence) <= |m| &&
              m[41 * k + 48 * Indicator(!checks.trainPresence)..] == TestPresenceFailure
  {
    var a := Unless(checks.trainCount, TrainCountFailure);
    var b := Unless(checks.testCount, TestCountFailure);
    var c := Unless(checks.trainPresence, TrainPresenceFailure);
    var d := Unless(checks.testPresence, TestPresenceFailure);
    assert |TrainCountFailure| == 41 && |TestCountFailure| == 41 && |TrainPresenceFailure| == 48;
    UnlessLength(checks.trainCount, TrainCountFailure, 41);
    UnlessLength(checks.testCount, TestCountFailure, 41);
    UnlessLength(checks.trainPresence, TrainPresenceFailure, 48);
    FourPartsAt(a, b, c, d, FailureMessage(checks));
  }

  lemma UnlessLength(passed: bool, text: string, n: nat)
    requires |text| == n
    ensures |Unless(passed, text)| == (if passed then 0 else n)
  {
  }

  /** Each part of a four-part concatenation is the slice at its offset. */
  lemma FourPartsAt(a: string, b: string, c: string, d: string, m: string)
    requires m == ((a + b) + c) + d
    ensures m[..|a|] == a
    ensures m[|a|..|a| + |b|] == b
    ensures m[|a| + |b|..|a| + |b| + |c|] == c
    ensures m[|a| + |b| + |c|..] == d
  {
    var abc := (a + b) + c;
    assert m[..|abc|] == abc && m[|abc|..] == d;
    assert abc[..|a| + |b|] == a + b && abc[|a| + |b|..] == c;
    assert (a + b)[..|a|] == a && (a + b)[|a|..] == b;
  }

  /** Where the parts of a four-part concatenation sit, whatever they hold. */
  lemma FourPartsOrder(a: string, b: string, c: string, d: string, m: string)
    requires m == ((a + b) + c) + d
    ensures a <= m
    ensures a == [] ==> b <= m
    ensures a == [] && b == [] ==> c <= m
    ensures EndsWith(m, d)
    ensures d == [] ==> EndsWith(m, c)
  {
    ConcatAssoc(a, b, c, d);
    PrefixOfConcat(a, (b + c) + d);
    ConcatAssoc([], b, c, d);
    PrefixOfConcat(b, c + d);
    PrefixOfConcat(c, d);
    SuffixOfConcat((a + b) + c, d);
    if d == [] {
      SuffixOfConcat(a + b, c);
    }
  }

  lemma ConcatAssoc<T>(x: seq<T>, y: seq<T>, z: seq<T>, w: seq<T>)
    ensures ((x + y) + z) + w == x + ((y + z) + w)
  {
  }

  lemma PrefixOfConcat(x: string, y: string)
    ensures x <= x + y
  {
  }

  lemma SuffixOfConcat(x: string, y: string)
    ensures EndsWith(x + y, y)
  {
    assert (x + y)[|x|..] == y;
  }

  predicate EndsWith(s: string, suffix: string)
  {
    |suffix| <= |s| && s[|s| - |suffix|..] == suffix
  }

  function Indicator(b: bool): nat
  {
    if b then 1 else 0
  }

  /** What a reader of the message can learn: how many tables failed the
      count check (not which one), and each presence verdict. */
  datatype Summary = Summary(countFailures: nat, trainPresence: bool, testPresence: bool)

  function Summarize(checks: Checks): Summary
  {
    Summary(Indicator(!checks.trainCount) + Indicator(!checks.testCount), checks.trainPresence, checks.testPresence)
  }

  lemma MessageLength(checks: Checks)
    ensures |FailureMessage(checks)| ==
              41 * Summarize(checks).countFailures
              + 48 * Indicator(!checks.trainPresence)
              + 47 * Indicator(!checks.testPresence)
  {
    assert |TrainCountFailure| == 41 && |TestCountFailure| == 41;
    assert |TrainPresenceFailure| == 48 && |TestPresenceFailure| == 47;
  }

  /** Two runs produce the same message exactly when they agree on the
      summary: the message records every presence verdict, but a failed
      train count and a failed test count read the same. */
  lemma {:induction false} MessageDeterminesSummary(c1: Checks, c2: Checks)
    ensures FailureMessage(c1) == FailureMessage(c2) <==> Summarize(c1) == Summarize(c2)
  {
    if FailureMessage(c1) == FailureMessage(c2) {
      MessageLength(c1);
      MessageLength(c2);
      WeightsAreDistinct(Summarize(c1).countFailures, Indicator(!c1.trainPresence), Indicator(!c1.testPresence),
                         Summarize(c2).countFailures, Indicator(!c2.trainPresence), Indicator(!c2.testPresence));
    }
    if Summarize(c1) == Summarize(c2) {
      assert Unless(c1.trainCount, TrainCountFailure) + Unless(c1.testCount, TestCountFailure)
          == Unless(c2.trainCount, TrainCountFailure) + Unless(c2.testCount, TestCountFailure);
    }
  }

  lemma WeightsAreDistinct(k1: nat, b1: nat, d1: nat, k2: nat, b2: nat, d2: nat)
    requires k1 <= 2 && b1 <= 1 && d1 <= 1 && k2 <= 2 && b2 <= 1 && d2 <= 1
    requires 41 * k1 + 48 * b1 + 47 * d1 == 41 * k2 + 48 * b2 + 47 * d2
    ensures k1 == k2 && b1 == b2 && d1 == d2
  {
  }

  /** A failed test-table count check is reported with the same text as a
      failed train-table count check. */
  lemma CountFailuresIndistinguishable(trainPresence: bool, testPresence: bool)
    ensures FailureMessage(Checks(false, true, trainPresence, testPresence))
         == FailureMessage(Checks(true, false, trainPresence, testPresence))
  {
    assert TestCountFailure == TrainCountFailure;
    assert Unless(false, TrainCountFailure) + Unless(true, TestCountFailure) == TrainCountFailure;
    assert Unless(true, TrainCountFailure) + Unless(false, TestCountFailure) == TestCountFailure;
  }

  // ---------------------------------------------------------------------
  // Python's str.strip()

  /** Python's `str.isspace` for a single character. */
  predicate IsSpace(c: char)
  {
    var n := c as int;
    (9 <= n <= 13) || (28 <= n <= 32) || n == 0x85 || n == 0xA0 || n == 0x1680
    || (0x2000 <= n <= 0x200A) || n == 0x2028 || n == 0x2029 || n == 0x202F
    || n == 0x205F || n == 0x3000
  }

  predicate NoOuterSpace(s: string)
  {
    |s| == 0 || (!IsSpace(s[0]) && !IsSpace(s[|s| - 1]))
  }

  lemma NoOuterSpaceConcat(a: string, b: string)
    requires NoOuterSpace(a) && NoOuterSpace(b)
    ensures NoOuterSpace(a + b)
  {
  }

  function StripLeading(s: string): (r: string)
    ensures |r| <= |s| && r == s[|s| - |r|..]
    ensures forall i :: 0 <= i < |s| - |r| ==> IsSpace(s[i])
    ensures |r| == 0 || !IsSpace(r[0])
    decreases |s|
  {
    if |s| > 0 && IsSpace(s[0]) then StripLeading(s[1..]) else s
  }

  function StripTrailing(s: string): (r: string)
    ensures |r| <= |s| && r == s[..|r|]
    ensures forall i :: |r| <= i < |s| ==> IsSpace(s[i])
    ensures |r| == 0 || !IsSpace(r[|r| - 1])
    decreases |s|
  {
    if |s| > 0 && IsSpace(s[|s| - 1]) then StripTrailing(s[..|s| - 1]) else s
  }

  /** `str.strip()`: the slice left after removing whitespace from both ends. */
  function Strip(s: string): (r: string)
    ensures NoOuterSpace(r)
    ensures exists i, j :: 0 <= i <= j <= |s| && r == s[i..j] &&
              (forall k :: 0 <= k < i ==> IsSpace(s[k])) &&
              (forall k :: j <= k < |s| ==> IsSpace(s[k]))
    ensures NoOuterSpace(s) ==> r == s
  {
    var lead := StripLeading(s);
    var r := StripTrailing(lead);
    var i := |s| - |lead|;
    assert r == s[i..i + |r|];
    r
  }

  // ---------------------------------------------------------------------
  // The stage

  /** What validation hands on: the artifact, and the report it writes to
      the artifact's report path. */
  datatype ValidationOutcome = ValidationOutcome(artifact: ValidationArtifact, report: ValidationReport)

  /** The body of `initiate_data_validation` once both splits are loaded.
      Failing checks are reported as data, never as an error. */
  function Validate(schema: Schema, train: seq<string>, test: seq<string>, config: ValidationConfig): (out: ValidationOutcome)
    ensures out.artifact.validationStatus <==>
              NumberOfColumnsValid(schema, train) && NumberOfColumnsValid(schema, test) &&
              ColumnsExist(schema, train) && ColumnsExist(schema, test)
    ensures out.artifact.validationStatus <==> out.artifact.message == ""
    ensures out.artifact.message == FailureMessage(RunChecks(schema, train, test))
    ensures out.report.validationStatus == out.artifact.validationStatus
    ensures out.report.message == out.artifact.message
    ensures out.artifact.validationReportFilePath == config.validationReportFilePath
  {
    var message := FailureMessage(RunChecks(schema, train, test));
    var status := |message| == 0;
    ValidationOutcome(
      ValidationArtifact(status, message, config.validationReportFilePath),
      ValidationReport(status, Strip(message)))
  }

  /** `initiate_data_validation`: load train then test, then validate. Only
      a failed load aborts the stage. */
  function InitiateValidation(schema: Schema, ingestion: IngestionArtifact, config: ValidationConfig,
                              read: string -> Result<Frame, Error>): (r: Result<ValidationOutcome, Error>)
    ensures r.Success? <==> read(ingestion.trainedFilePath).Success? && read(ingestion.testFilePath).Success?
    ensures read(ingestion.trainedFilePath).Failure? ==> r == Failure(read(ingestion.trainedFilePath).error)
    ensures r.Success? ==>
              r.value == Validate(schema, Names(read(ingestion.trainedFilePath).value.columns),
                                  Names(read(ingestion.testFilePath).value.columns), config)
  {
    var train :- read(ingestion.trainedFilePath);
    var test :- read(ingestion.testFilePath);
    Success(Validate(schema, Names(train.columns), Names(test.columns), config))
  }
}

=== FILE: wrappers.dfy ===
/** Failure-compatible wrappers used throughout the model. The exceptions the
    modelled operations raise on a table (a failed load, a missing or
    duplicated label, a failed int cast, a failed fit, transform or resampling call) are
    represented by a `Failure` value instead. */
module Wrappers {

  datatype Option<+T> = None | Some(value: T)

  /** Either a computed value or the error that aborted the computation.
      Supports Dafny's `:-` so that a chain of steps stops at the first failure,
      just as an exception unwinds a sequence of statements. */
  datatype Result<+T, +E> = Success(value: T) | Failure(error: E) {

    predicate IsFailure() {
      Failure?
    }

    function PropagateFailure<U>(): Result<U, E>
      requires Failure?
    {
      Failure(error)
    }

    function Extract(): T
      requires Success?
    {
      value
    }
  }
}
